=== FILE: README.md ===
# Session and authentication core of the raffle-campaign admin client

This project models the session subsystem of a React single-page client in Dafny and proves
properties of the model. The model covers the following pieces.

- The credential store: one storage key holding the bearer token.
- The session reducer: `{isAuthenticated, user?}` with LOGIN, SET_USER and LOGOUT.
- The two route guards and the route table.
- The request and response interceptors.
- The bootstrap sequence of the application shell, with the sign-in and logout events.
- The profile form's submit and prefill transforms, and the phone-number cleaner.

Everything is a pure function over immutable values:

- Browser storage is a `map<Key, Stored>`.
- The reducer maps (store, state, action) to (store, state), since LOGOUT deletes the token.
- A guard is a function of the store and its children.
- A redirect is a returned `Navigate(path, replace)` value.
- React's effects and callbacks are events of one state machine, `App.Step`.
- A JavaScript exception is the `Fail` case of `Js.Result`.

Files: `js.dfy` (Option, Nullish, Result), `storage.dfy`, `session.dfy`, `guards.dfy`,
`routes.dfy`, `interceptors.dfy`, `text.dfy` (character-class removal), `format_phone.dfy`,
`profile.dfy`, `account_menu.dfy`, `signin.dfy`, `app.dfy`.

The model follows the code, including where its behaviour may surprise a reader:

- Reading the credential can throw. `JSON.parse` in `getAccessToken` is unguarded, so a
  stored value that is not a serialised record raises instead of reading as "no token".
- The guards decide from storage, not from the session. A session marked authenticated with
  no stored token is still sent to `/sign-in`.
- The 401 hook point of the response interceptor has an empty body. No response forces a
  logout.
- A failed profile fetch leaves the session's user as it was. It does not reset it.
- `data.document?.replace(...)` turns a `null` document into `undefined`, because optional
  chaining yields `undefined` for both `null` and `undefined`.
- A sign-in error whose response has no `data` makes `onError` throw before the toast is shown.
  The mutation swallows that exception, so the app carries on unchanged and shows no toast.

## Model

| member | source | states |
|---|---|---|
| `Storage.GetAccessToken` | src/auth/storage.ts:13-18 | A missing key or an empty stored string reads as no token. A record yields exactly its token, even an empty one. Any other stored text throws a parse error. |
| `Storage.IsAuthenticated` | src/auth/storage.ts:8-11 | True exactly when the decoded token is non-empty, so a saved empty token counts as unauthenticated. It throws exactly when decoding throws. |
| `Storage.SetAccessToken` | src/auth/storage.ts:20-22 | Stores the raw string under the credential key. Reading it back fails for any non-empty string and gives no token for the empty one, so it does not round-trip. Other keys are untouched. |
| `Storage.SaveAccessToken` | src/auth/storage.ts:24-26 | Round trip: after saving `{token: t}`, `GetAccessToken` returns `t` and `IsAuthenticated` is `t != ""`. Other keys are untouched. |
| `Storage.RemoveAccessToken` | src/auth/storage.ts:28-30 | Afterwards the key is absent, there is no token, and `IsAuthenticated` is false. Other keys are untouched. |
| `Storage.RemoveIdempotent` | src/auth/storage.ts:28-30 | Removing twice equals removing once. |
| `Storage.WritesTouchOnlyTheTokenKey` | src/auth/storage.ts:20-30 | Any sequence of the three writers leaves every other storage key as it was. |
| `Storage.LatestWriteWins` | src/auth/storage.ts:20-30 | After any history of writes, what `GetAccessToken` reads depends on the last write alone. |
| `Storage.SetAccessTokenToApiClient` | src/auth/storage.ts:32-34 | The default Authorization header becomes `"Bearer " + t` and every other default header is kept. The function takes no store, so storage is untouched. |
| `Session.Reduce` | src/store/auth.tsx:57-69 | LOGIN: authenticated; the user is the payload if given, else the previous user. SET_USER: the user is the payload, even an absent one, and the flag is unchanged. LOGOUT: `{false, undefined}` with no dispatcher, and the token is cleared. Only LOGOUT touches storage. An unknown type returns the state unchanged. |
| `Session.LoginIdempotent` | src/store/auth.tsx:59 | LOGIN without a payload, applied twice, equals applying it once. |
| `Session.LogoutIdempotent` | src/store/auth.tsx:64-66 | LOGOUT is idempotent, and its result is the same from every prior state. |
| `Session.UseAuth` | src/store/auth.tsx:40-44 | Throws exactly when the context has no dispatcher. Otherwise it exposes the flag and the user. |
| `Session.ProviderValue` | src/store/auth.tsx:71-74 | The provider re-supplies `dispatch` for every state, so `useAuth` under the provider never throws. |
| `Session.DispatcherAvailability` | src/store/auth.tsx:32-36 | `useAuth` on the initial context throws. The LOGOUT state has lost its dispatcher, but the provider value still works. |
| `Guards.RequireAuth` | src/auth/guard.tsx:4-8 | With no truthy stored token: a history-replacing redirect to `/sign-in`. Otherwise: the children unchanged. It throws exactly when reading storage throws. |
| `Guards.RequireNotAuth` | src/auth/guard.tsx:10-14 | With a truthy stored token: a history-replacing redirect to `/home`. Otherwise: the children unchanged. |
| `Guards.ExactlyOneGuardRenders` | src/auth/guard.tsx:4-14 | For every readable store, exactly one of the two guards renders its children. For an unreadable store, both throw. |
| `Guards.GuardFollowsStorageWrites` | src/auth/guard.tsx:4-14 | After removing the token, `RequireAuth` redirects and `RequireNotAuth` renders. After saving a non-empty token, `RequireAuth` renders. |
| `Routing.Resolve` | src/routes.tsx:9-76 | `/home`, `/profile` and `/create-campaign` resolve to pages under `RequireAuth`. `/sign-in`, `/sign-up` and `/recover` resolve to pages under `RequireNotAuth`. `/reset-password/:token` matches exactly one more non-empty segment and binds it as `token`. Every path outside the table, `/` included, takes the `*` redirect to `/home`. |
| `Routing.RoutesDisjoint` | src/routes.tsx:9-71 | No path matches two routes of the table, so route ranking and first match agree. |
| `Routing.Visit` | src/routes.tsx:9-76 | A guarded page shows exactly when its guard lets it through, with the resolved parameters. A path in the table throws exactly when reading storage throws, because the guard reads it while rendering. The fallback redirects without reading storage. |
| `Routing.NavigationSettles` | src/routes.tsx:72-75 | For a readable store, every path lands on a page within two redirects, and that page is protected exactly when a truthy token is stored. An unknown path with no token ends on `/sign-in`; with a token it ends on `/home`. |
| `Interceptors.OnRequest` | src/hooks/use-axios-interceptors.tsx:6-10 | With a truthy stored token, Authorization becomes `"Bearer " + token`. Otherwise the configuration is returned as is. No other field or header changes. It throws exactly when reading storage throws. |
| `Interceptors.OnRequestIdempotent` | src/hooks/use-axios-interceptors.tsx:8 | Applying the request hook twice equals applying it once. |
| `Interceptors.StackedRequestHooks` | src/hooks/use-axios-interceptors.tsx:5-10 | For a readable store, n ≥ 1 stacked registrations produce the same request as one registration. The hook is registered again on every render. |
| `Interceptors.RequestErrorSwallowed` | src/hooks/use-axios-interceptors.tsx:11-13 | For every error, the as-written and corrected handlers differ, and only the corrected one passes the error on. |
| `Interceptors.RequestHook` | src/hooks/use-axios-interceptors.tsx:6-10 | On a configuration the hook behaves as `OnRequest`. On a missing configuration, which a swallowing stage hands on, it throws a TypeError when a truthy token is stored and passes the missing value on otherwise. A storage read failure comes first in every case. |
| `Interceptors.ChainFollowsHooks` | src/hooks/use-axios-interceptors.tsx:5-14 | Over a readable store, no stage of the chain rejects. The chain of n registrations resolves with the configuration of n stacked hooks. |
| `Interceptors.ReadableChainSends` | src/hooks/use-axios-interceptors.tsx:5-14 | Over a readable store, with either error handler, any n ≥ 1 registrations send the request with the configuration of one application of the hook. |
| `Interceptors.CorrectedChainRejects` | src/hooks/use-axios-interceptors.tsx:11-13 | With the corrected handler and an unreadable store, the request rejects with the storage parse error for every n ≥ 1 registrations. |
| `Interceptors.AsWrittenChainAlternates` | src/hooks/use-axios-interceptors.tsx:11-13 | As written, with an unreadable store, the chain alternates with n. An odd n rejects with a fresh storage error. An even n resolves with `undefined`, and the request then fails with a TypeError instead of the storage error. |
| `Interceptors.ErrorCode` | src/hooks/use-axios-interceptors.tsx:19 | The code is undefined when there is no response and when the response body is `null` or `undefined`. When the body is present, the code is its `message`. |
| `Interceptors.OnResponseError` | src/hooks/use-axios-interceptors.tsx:18-25 | Every failure is re-rejected with the original error and has no effect. The logout hook point is entered exactly for a 401 whose code is not `INVALID_CREDENTIALS`, an absent code included. |
| `Interceptors.StackedResponseStages` | src/hooks/use-axios-interceptors.tsx:16-26 | Through any number of stacked response interceptors, a success arrives as the same response and a failure as the same error. |
| `Text.RemoveAll` | src/utils/formatPhone.ts:3 | No character of the class remains. The length drops by the number of class characters. The string is unchanged exactly when it had none of them. |
| `Text.RemoveAllIsSubsequence` | src/utils/formatPhone.ts:3 | The remaining characters are the input's other characters, in their original order. |
| `Text.RemoveAllIdempotent` | src/utils/formatPhone.ts:3 | Removing a second time removes nothing more. |
| `Text.RemoveAllScan` | src/utils/formatPhone.ts:3 | A left-to-right scan computes the same string as the removal function. |
| `Phone.FormatPhoneNumber` | src/utils/formatPhone.ts:1-7 | `null`, `undefined` and `""` give undefined. Any other input gives a string with no whitespace (ECMAScript `\s`) and no `-`, `(`, `)` or `.`. The result is never longer than the input, and equals it exactly when the input had none of those characters. |
| `Phone.FormatPhoneKeepsOrder` | src/utils/formatPhone.ts:3 | The result is a subsequence of the input, shorter by exactly the number of removed characters. |
| `Phone.FormatPhoneIdempotent` | src/utils/formatPhone.ts:2-6 | Cleaning a non-empty result again returns the same result. An empty result cleans to undefined. |
| `Profile.DigitsOnly` | src/pages/app/account/profile.tsx:98 | A present document keeps every ASCII digit, in order, and nothing else: the result has only digits, is a subsequence of the document, and is shorter by exactly its number of non-digits. `null` and `undefined` both become `undefined`. |
| `Profile.Submit` | src/pages/app/account/profile.tsx:91-102 | With no session user, nothing is sent. Otherwise the id is the user's id, whatever the form held; the phone is cleaned; the document is reduced to digits; all other fields are forwarded unchanged. |
| `Profile.SubmitIdempotent` | src/pages/app/account/profile.tsx:95-100 | Re-submitting a payload changes nothing, unless its phone cleaned to `""`, which a second pass turns into undefined. |
| `Profile.Prefill` | src/pages/app/account/profile.tsx:103-117 | With no user, the form is left as is. Otherwise name, nickname and email are copied, and phone and document go through the formatters with `''` fallbacks. Falsy photo and social links become `null` and truthy ones are kept. The form's id is untouched. |
| `Profile.PrefillThenSubmit` | src/pages/app/account/profile.tsx:91-117 | Submitting an untouched prefilled form sends the user's own id, name, nickname, email, photo and all six social links, falsy ones as `null`, and a digits-only document. |
| `AccountMenu.HandleLogout` | src/components/account-menu.tsx:18-22 | When the session is not authenticated, it does nothing. Otherwise it resets the session, clears the token and navigates to `/sign-in`. |
| `AccountMenu.LogoutIgnoresStorage` | src/components/account-menu.tsx:16-19 | The decision reads the session flag: an unauthenticated session keeps a stored token. |
| `AccountMenu.EmailLabel` | src/components/account-menu.tsx:36 | `'E-mail não informado'` when the user or its email is null or undefined. Otherwise the email, even an empty one. |
| `SignIn.OnSuccess` | src/pages/auth/signin.tsx:36-41 | The token is saved as a `{token}` record and reads back. LOGIN without a payload authenticates and keeps the previous user. The navigation goes to `/home`. |
| `SignIn.ErrorText` | src/pages/auth/signin.tsx:42-48 | The toast text is the server's `msg` when truthy, otherwise the default sentence. With no response, it is the default. A response without `data` throws. |
| `App.Step` | src/App.tsx:13-41 | `isLoaded` is never cleared, and only mount or a fetch attempt settling set it. A fetch is issued only by the effect, while authenticated. A mount after the first changes nothing. Only sign-in and logout write storage. A failed response, a 401 included, changes nothing. A sign-in error whose toast text throws changes nothing. A step throws exactly on mounting over an unreadable store. |
| `App.StepEffects` | src/App.tsx:17-41 | For every state: the effect never cancels a pending fetch, not even when the flag drops on logout. With a fetch pending, a success authenticates with the fetched user, marks the app loaded and changes nothing else. The final failure only marks the app loaded. A failed attempt with a retry to come marks the app loaded and keeps the fetch pending. Sign-in and logout change nothing but storage, the session and the location. Mount records that it ran, so with the clause on `App.Step` it runs once. A reply with no fetch pending is ignored. The effect records the flag value it ran with, does nothing when the flag has not changed, and issues a fetch exactly when the flag has turned true. |
| `App.LoadedStaysLoaded` | src/App.tsx:13-32 | Once loaded, the app stays loaded for any sequence of events, so the indicator never reappears. |
| `App.ReadableStoreNeverThrows` | src/App.tsx:29-36 | From a readable store, no sequence of events throws, and the store stays readable. |
| `App.BootstrapWithoutToken` | src/App.tsx:30-34 | With no token, mount sets `isLoaded`, dispatches nothing and leaves the session initial. The effect then issues no fetch. |
| `App.BootstrapWithTokenFetchOk` | src/App.tsx:17-41 | With a token: mount dispatches LOGIN without a user, the effect issues the fetch, and success dispatches LOGIN with the user and then sets `isLoaded`. The indicator shows until then. |
| `App.BootstrapWithTokenFetchErr` | src/App.tsx:18-21 | With a token and a failing fetch, the app becomes loaded, stays authenticated, and has no user. |
| `App.RetriedFetchStillLogsIn` | src/App.tsx:17-24 | With a token, a failed attempt already hides the indicator and keeps the fetch pending. A successful retry then dispatches LOGIN with the user and leaves storage alone. |
| `App.LateFetchResurrectsSession` | src/App.tsx:18-23 | The logout render re-runs the effect, which leaves the fetch pending. When the reply then arrives, the session is re-authenticated with the fetched user while no token is stored, and `RequireAuth` still redirects to `/sign-in`. |
| `App.SignInThenGuards` | src/pages/auth/signin.tsx:37-40 | After sign-in with a non-empty token, the token is stored, the session is authenticated with its previous user, the location is `/home`, and `RequireAuth` renders. |
| `App.LogoutClearsToken` | src/components/account-menu.tsx:18-22 | From an authenticated session, logout clears the token, resets the session to no user and no dispatcher, and goes to `/sign-in`. From an unauthenticated session, nothing changes. |
| `App.SignInErrorOnlyToasts` | src/pages/auth/signin.tsx:42-48 | A failed sign-in saves and dispatches nothing. It only adds the toast text. |

## Findings

| source | as written | input that shows it | evidently intended | confidence | as-written member | corrected member |
|---|---|---|---|---|---|---|
| src/hooks/use-axios-interceptors.tsx:11-13 | The request-error handler calls `Promise.reject(error)` without returning it. Its stage resolves with `undefined`, so the original error is lost. The next stage receives an undefined configuration. Then either the next registration's hook throws a fresh storage error, or `dispatchRequest` fails with a TypeError. | A credential key overwritten with non-record text from outside the running app after it has mounted, for example by another tab or the browser's developer tools. The app's own writers keep the key readable, and an unreadable key at load stops the app in the mount effect before any request. The interceptors are registered twice, because the hook registers again on every render. The first hook throws the parse error. The second registration's handler swallows it. The request then fails with a TypeError. | Return the rejection, as the response handler does at line 24. Every request would then reject with the storage error. | not executed | `Interceptors.AsWrittenChainAlternates` | `Interceptors.CorrectedChainRejects` |

## Left out

- React rendering, hook scheduling and batching. Effects and callbacks are events that may arrive in any order, which over-approximates React's ordering.
- The `useAxiosInterceptors` registration itself. The number of registrations is a parameter of `RequestChain` and `ApplyResponseStages`. axios runs request interceptors in reverse order of registration, which does not matter here because all registrations are identical.
- What `dispatchRequest` does beyond reading the configuration: the adapter, the network and response transforms.
- Storage.GetAccessToken: `JSON.parse` is abstract. A value written verbatim that happens to be valid JSON, such as `{"token":"x"}` or `123`, is treated as undecodable.
- The value of the storage key constant, which lives in configuration not part of this model. It is an abstract key, distinct from all others.
- Concurrent access to storage from other tabs, except as the source of the unreadable credential in the Findings row. `App.Step` has no event for an outside write.
- Interceptors.StackedRequestHooks: stated only for a readable store. The unreadable case is stated on the whole chain by `CorrectedChainRejects` and `AsWrittenChainAlternates`.
- axios header-name case-insensitivity and the merging of client defaults into each request.
- URL parsing. Paths arrive already split into non-empty segments. The router's case-insensitive matching, trailing-slash handling, percent-decoding of parameters and the `*` splat parameter are not modelled.
- The `Navigate` component and `navigate()`. Only the target and the replace flag are kept, and `App.Step` records the latest target.
- react-query internals. A refetch issued while one is in flight counts as the same pending fetch, and cancellation is not modelled.
- The number of retries of the profile query. It depends on the query-client configuration, which is not part of this model (TanStack Query retries three times by default). Any number of `FetchRetry` events may come before the final `FetchOk` or `FetchErr`.
- The crash of the application when the mount effect throws. The model ends the run with a failure and does not model React's unmounting or error boundaries.
- Toast variant and title, the profile update's success and failure toasts, and the `user?.name` label.
- `isExpired` and the date utilities, which wrap a date library and are unused by the core.
- The HTTP services (`getMe`, `signin`, `updateUser`): their outcomes are the `FetchOk`/`FetchErr` and `SignInOk`/`SignInErr` events.
- The form pages and their validation schemas, and the campaign totals (floating point).
- The `brazilian-values` formatters: parameters of `Profile.Prefill`.
- The unused `useInitAuthenticatedUser` hook, layouts, presentational components and the application entry point.
- SET_USER is modelled in the reducer but is never dispatched by the modelled code.

=== FILE: account_menu.dfy ===
/**
 The account menu of src/components/account-menu.tsx: the logout handler, which decides
 from the session flag rather than from storage, and the e-mail label.
 */
module AccountMenu {
  import opened Js
  import Storage
  import Session
  import Guards

  /** What the logout handler leaves behind: the store, the reducer state and the navigation
      it requested, if any. */
  datatype LogoutOutcome =
    LogoutOutcome(store: Storage.Store, state: Session.AuthState, navigation: Option<Guards.Path>)

  /** `handleLogout`: nothing when the session is not authenticated; otherwise LOGOUT is
      dispatched, which clears the token, and then the app navigates to the sign-in page. */
  function HandleLogout(store: Storage.Store, state: Session.AuthState): (r: LogoutOutcome)
    ensures !state.isAuthenticated ==> r == LogoutOutcome(store, state, None)
    ensures state.isAuthenticated ==>
      && r.state == Session.AuthState(false, None, false)
      && Storage.GetAccessToken(r.store) == Ok(None)
      && Storage.SameOtherKeys(store, r.store)
      && r.navigation == Some(Guards.SignInPath)
  {
    if !state.isAuthenticated then LogoutOutcome(store, state, None)
    else
      var reduced := Session.Reduce(store, state, Session.Action(Session.Logout, None));
      LogoutOutcome(reduced.store, reduced.state, Some(Guards.SignInPath))
  }

  /** The decision reads the session flag only: with a token stored but the session not
      authenticated, logging out leaves the token in place. */
  lemma LogoutIgnoresStorage(store: Storage.Store, state: Session.AuthState)
    requires !state.isAuthenticated
    ensures HandleLogout(store, state).store == store
    ensures Storage.GetAccessToken(HandleLogout(store, state).store) == Storage.GetAccessToken(store)
  {
  }

  const MissingEmailLabel: string := "E-mail não informado"

  /** `user?.email ?? 'E-mail não informado'`: the fallback when the user or its e-mail is
      null or undefined; an empty e-mail is shown as it is. */
  function EmailLabel(user: Option<Session.User>): (r: string)
    ensures user.None? ==> r == MissingEmailLabel
    ensures user.Some? && user.value.email.IsNullish() ==> r == MissingEmailLabel
    ensures user.Some? && user.value.email.Present? ==> r == user.value.email.value
  {
    match user
    case None => MissingEmailLabel
    case Some(u) => u.email.Or(MissingEmailLabel)
  }
}

=== FILE: app.dfy ===
/**
 The bootstrap sequence of src/App.tsx together with the session events of the sign-in page
 and the account menu, as one event-driven state machine. React's effects and callbacks
 become explicit events:
 - Mount: the mount effect (it runs once);
 - AuthEffect: the effect on `isAuthenticated`, run after a render in which that flag
   differs from the value it last ran with;
 - FetchRetry: an attempt of the profile query failing with a retry still to come;
 - FetchOk / FetchErr: the profile query settling;
 - SignInOk / SignInErr: the sign-in mutation settling;
 - LogoutClicked: the menu's logout item;
 - ResponseFailed: a failed response passing the response interceptor.
 A step that throws outside any catching caller (the mount effect reading a stored credential
 `JSON.parse` rejects) ends in a failure. An exception inside the sign-in mutation's
 `onError` is caught by the mutation's `mutate` and leaves the state as it was.
 */
module App {
  import opened Js
  import Storage
  import Session
  import Guards
  import Interceptors
  import AccountMenu
  import SignIn

  datatype Global = Global(
    store: Storage.Store,
    session: Session.AuthState,   // the reducer state; the provider adds the dispatcher
    isLoaded: bool,
    mounted: bool,                // the mount effect has run
    observedAuth: bool,           // the flag value the `isAuthenticated` effect last ran with
    fetchInFlight: bool,          // a profile fetch was issued and has not settled
    location: Guards.Path,        // the latest location the app navigated to
    toasts: seq<string>)

  /** The state before the first commit: whatever storage holds, the reducer's initial state,
      nothing loaded, no effect run yet. */
  function Init(store: Storage.Store, location: Guards.Path): Global {
    Global(store, Session.InitialState, false, false, false, false, location, [])
  }

  datatype Event =
    | Mount
    | AuthEffect
    | FetchOk(user: Session.User)
    | FetchRetry
    | FetchErr
    | SignInOk(response: SignIn.SigninResponse)
    | SignInErr(error: Interceptors.HttpError)
    | LogoutClicked
    | ResponseFailed(error: Interceptors.HttpError)

  /** One event. */
  function Step(g: Global, e: Event): (r: Result<Global>)
    // the loading flag is only ever set, never cleared
    ensures r.Ok? && g.isLoaded ==> r.value.isLoaded
    // it is set only by the mount effect or by the profile fetch settling
    ensures r.Ok? && !g.isLoaded && r.value.isLoaded ==>
      e == Mount || e.FetchOk? || e == FetchRetry || e == FetchErr
    // a profile fetch is issued only by the effect, and only while the session is authenticated
    ensures r.Ok? && r.value.fetchInFlight && !g.fetchInFlight ==>
      e == AuthEffect && g.session.isAuthenticated
    // the mount effect runs once
    ensures g.mounted && e == Mount ==> r == Ok(g)
    // only signing in and logging out write storage
    ensures r.Ok? && r.value.store != g.store ==> e.SignInOk? || e == LogoutClicked
    // a failed response changes nothing, a 401 included
    ensures e.ResponseFailed? ==> r == Ok(g)
    // a sign-in error whose toast text throws is swallowed by the mutation
    ensures e.SignInErr? && SignIn.ErrorText(e.error).Fail? ==> r == Ok(g)
    // a step throws only when mounting over an unreadable store
    ensures r.Fail? <==> e == Mount && !g.mounted && Storage.GetAccessToken(g.store).Fail?
  {
    // every handler reads the session through `useAuth` under the provider, which never throws
    var auth := Session.UseAuth(Session.ProviderValue(g.session)).value;
    match e
    case Mount =>
      if g.mounted then Ok(g)
      else
        var hasAccessToken :- Storage.IsAuthenticated(g.store);
        if !hasAccessToken then Ok(g.(mounted := true, isLoaded := true))
        else
          var reduced := Session.Reduce(g.store, g.session, Session.Action(Session.Login, None));
          Ok(g.(mounted := true, store := reduced.store, session := reduced.state))
    case AuthEffect =>
      if auth.isAuthenticated == g.observedAuth then Ok(g)
      else if !auth.isAuthenticated then Ok(g.(observedAuth := false))
      else Ok(g.(observedAuth := true, fetchInFlight := true))
    case FetchOk(user) =>
      if !g.fetchInFlight then Ok(g)
      else
        var reduced := Session.Reduce(g.store, g.session, Session.Action(Session.Login, Some(user)));
        Ok(g.(store := reduced.store, session := reduced.state,
              isLoaded := true, fetchInFlight := false))
    case FetchRetry =>
      if !g.fetchInFlight then Ok(g)
      else Ok(g.(isLoaded := true))
    case FetchErr =>
      if !g.fetchInFlight then Ok(g)
      else Ok(g.(isLoaded := true, fetchInFlight := false))
    case SignInOk(response) =>
      var out := SignIn.OnSuccess(g.store, g.session, response);
      Ok(g.(store := out.store, session := out.state, location := out.navigation))
    case SignInErr(error) =>
      // `mutate` discards the exception `onError` throws, together with the toast
      (match SignIn.ErrorText(error)
       case Ok(text) => Ok(g.(toasts := g.toasts + [text]))
       case Fail(_) => Ok(g))
    case LogoutClicked =>
      var out := AccountMenu.HandleLogout(g.store, g.session);
      Ok(g.(store := out.store, session := out.state, location := out.navigation.Or(g.location)))
    case ResponseFailed(_) =>
      // the response-error handler has no effect; see Interceptors.OnResponseError
      Ok(g)
  }

  /** What each session event does to the rest of the state, from any state. */
  lemma StepEffects(g: Global, e: Event)
    // the effect never cancels a pending fetch, not even when the flag drops on logout
    ensures e == AuthEffect && g.fetchInFlight ==>
      var r := Step(g, e); r.Ok? && r.value.fetchInFlight
    // a settling fetch: success authenticates with the fetched user, marks the app loaded and
    // changes nothing else; the final failure only marks the app loaded
    ensures e.FetchOk? && g.fetchInFlight ==>
      var session := g.session.(isAuthenticated := true, user := Some(e.user));
      Step(g, e) == Ok(g.(session := session, isLoaded := true, fetchInFlight := false))
    ensures e == FetchErr && g.fetchInFlight ==>
      Step(g, e) == Ok(g.(isLoaded := true, fetchInFlight := false))
    // a failed attempt that will be retried marks the app loaded and keeps the fetch pending
    ensures e == FetchRetry && g.fetchInFlight ==> Step(g, e) == Ok(g.(isLoaded := true))
    // signing in and logging out change only storage, the session and the location
    ensures e.SignInOk? || e == LogoutClicked ==>
      var r := Step(g, e);
      r.Ok? && r.value.(store := g.store, session := g.session, location := g.location) == g
    // the mount effect records that it ran, so it runs once
    ensures e == Mount && Step(g, e).Ok? ==> Step(g, e).value.mounted
    // a reply with no fetch pending is ignored
    ensures (e.FetchOk? || e == FetchRetry || e == FetchErr) && !g.fetchInFlight ==> Step(g, e) == Ok(g)
    // the effect depends on the flag alone: it records the value it ran with, does nothing
    // when that value has not changed, and fetches exactly when the flag has turned true
    ensures e == AuthEffect ==>
      Step(g, e).Ok? && Step(g, e).value.observedAuth == g.session.isAuthenticated
    ensures e == AuthEffect && g.session.isAuthenticated == g.observedAuth ==> Step(g, e) == Ok(g)
    ensures e == AuthEffect && g.session.isAuthenticated && !g.observedAuth ==>
      var r := Step(g, e); r.Ok? && r.value.fetchInFlight
  {
  }

  /** A sequence of events, stopping at the first that throws. */
  function Run(g: Global, events: seq<Event>): Result<Global>
    decreases |events|
  {
    if events == [] then Ok(g)
    else
      var next :- Step(g, events[0]);
      Run(next, events[1..])
  }

  /** What the application renders: the loading indicator exactly while not loaded, and the
      routes in every case. */
  datatype View = View(loadingIndicator: bool, routes: bool)

  function Render(g: Global): View {
    View(!g.isLoaded, true)
  }

  /** Once loaded, always loaded: the indicator never comes back, whatever happens next. */
  lemma {:induction false} LoadedStaysLoaded(g: Global, events: seq<Event>)
    requires g.isLoaded
    ensures Run(g, events).Ok? ==>
      Run(g, events).value.isLoaded && !Render(Run(g, events).value).loadingIndicator
    decreases |events|
  {
    if events != [] {
      var next := Step(g, events[0]);
      if next.Ok? {
        LoadedStaysLoaded(next.value, events[1..]);
      }
    }
  }

  /** The app's own writes keep the store readable, so from a readable store no sequence of
      events throws. */
  lemma {:induction false} ReadableStoreNeverThrows(g: Global, events: seq<Event>)
    requires Storage.GetAccessToken(g.store).Ok?
    ensures Run(g, events).Ok?
    ensures Storage.GetAccessToken(Run(g, events).value.store).Ok?
    decreases |events|
  {
    if events != [] {
      var next := Step(g, events[0]);
      assert next.Ok?;
      assert Storage.GetAccessToken(next.value.store).Ok?;
      ReadableStoreNeverThrows(next.value, events[1..]);
    }
  }

  /** With no token stored, mounting marks the app loaded, leaves the session
      unauthenticated and dispatches nothing, so the effect never issues a fetch. */
  lemma BootstrapWithoutToken(store: Storage.Store, location: Guards.Path)
    requires Storage.IsAuthenticated(store) == Ok(false)
    ensures var r := Step(Init(store, location), Mount);
      && r.Ok? && r.value.isLoaded
      && r.value.session == Session.InitialState
      && !r.value.fetchInFlight
      && Step(r.value, AuthEffect) == r
  {
  }

  /** With a token stored and a fetch that succeeds with `user`: LOGIN without payload, then
      the fetch, then LOGIN with `user`. The indicator shows until the fetch settles. */
  lemma BootstrapWithTokenFetchOk(store: Storage.Store, location: Guards.Path, user: Session.User)
    requires Storage.IsAuthenticated(store) == Ok(true)
    ensures var s1 := Step(Init(store, location), Mount);
      && s1.Ok? && !s1.value.isLoaded
      && s1.value.session.isAuthenticated && s1.value.session.user.None?
      && var s2 := Step(s1.value, AuthEffect);
      && s2.Ok? && !s2.value.isLoaded && s2.value.fetchInFlight
      && var s3 := Step(s2.value, FetchOk(user));
      && s3.Ok? && s3.value.isLoaded && !s3.value.fetchInFlight
      && s3.value.session.isAuthenticated && s3.value.session.user == Some(user)
      && s3.value.store == store
  {
  }

  /** With a token stored and a failing fetch, the app still becomes loaded, stays
      authenticated, and has no user. */
  lemma BootstrapWithTokenFetchErr(store: Storage.Store, location: Guards.Path)
    requires Storage.IsAuthenticated(store) == Ok(true)
    ensures var r := Run(Init(store, location), [Mount, AuthEffect, FetchErr]);
      && r.Ok? && r.value.isLoaded && !r.value.fetchInFlight
      && r.value.session.isAuthenticated && r.value.session.user.None?
      && r.value.store == store
  {  }

  /** With a token stored, a first attempt that fails and a retry that succeeds: the failed
      attempt already hides the indicator, and the retry still dispatches LOGIN with `user`. */
  lemma RetriedFetchStillLogsIn(store: Storage.Store, location: Guards.Path, user: Session.User)
    requires Storage.IsAuthenticated(store) == Ok(true)
    ensures var s := Run(Init(store, location), [Mount, AuthEffect, FetchRetry]);
      && s.Ok? && s.value.isLoaded && s.value.fetchInFlight
      && var r := Step(s.value, FetchOk(user));
      && r.Ok? && r.value.session.isAuthenticated && r.value.session.user == Some(user)
      && !r.value.fetchInFlight && r.value.store == store
  {
  }

  /** A fetch that completes after logout resurrects the session. The logout render re-runs
      the effect, which does not cancel the pending fetch; when the reply arrives the session
      is authenticated again, with the fetched user, while no token is stored, and
      `RequireAuth` still redirects. */
  lemma LateFetchResurrectsSession<C>(
    store: Storage.Store, location: Guards.Path, user: Session.User, page: C)
    requires Storage.IsAuthenticated(store) == Ok(true)
    ensures var s1 := Step(Init(store, location), Mount).value;
      var s2 := Step(s1, AuthEffect).value;
      var s3 := Step(Step(s2, LogoutClicked).value, AuthEffect);
      && s3.Ok? && !s3.value.session.isAuthenticated && s3.value.fetchInFlight
      && var s4 := Step(s3.value, FetchOk(user));
      && s4.Ok?
      && s4.value.session.isAuthenticated && s4.value.session.user == Some(user)
      && Storage.GetAccessToken(s4.value.store) == Ok(None)
      && Guards.RequireAuth(s4.value.store, page) == Ok(Guards.Navigate(Guards.SignInPath, true))
  {
  }

  /** Signing in saves the token before LOGIN and navigates home afterwards; the user the
      session had is kept; and the guards then let protected pages through. */
  lemma SignInThenGuards<C>(g: Global, token: string, page: C)
    requires token != ""
    ensures var r := Step(g, SignInOk(SignIn.SigninResponse(token)));
      && r.Ok?
      && Storage.GetAccessToken(r.value.store) == Ok(Some(token))
      && r.value.session.isAuthenticated && r.value.session.user == g.session.user
      && r.value.location == Guards.HomePath
      && Guards.RequireAuth(r.value.store, page) == Ok(Guards.Render(page))
  {
  }

  /** Logging out from an authenticated session clears the token, resets the session to no
      user and no dispatcher, and goes to the sign-in page; from an unauthenticated session it
      does nothing, even with a token stored. */
  lemma LogoutClearsToken(g: Global)
    ensures var r := Step(g, LogoutClicked);
      && r.Ok?
      && (g.session.isAuthenticated ==>
            Storage.GetAccessToken(r.value.store) == Ok(None)
            && r.value.session == Session.AuthState(false, None, false)
            && r.value.location == Guards.SignInPath)
      && (!g.session.isAuthenticated ==> r.value == g)
  {
  }

  /** A failed sign-in saves and dispatches nothing; only a toast is added. */
  lemma SignInErrorOnlyToasts(g: Global, error: Interceptors.HttpError)
    requires SignIn.ErrorText(error).Ok?
    ensures var r := Step(g, SignInErr(error));
      && r.Ok?
      && r.value == g.(toasts := g.toasts + [SignIn.ErrorText(error).value])
  {
  }
}

=== FILE: format_phone.dfy ===
/**
 `formatPhoneNumber` of src/utils/formatPhone.ts: a falsy input (null, undefined or the
 empty string) gives undefined; any other string loses every whitespace character and every
 `-`, `(`, `)` and `.`.
 */
module Phone {
  import opened Js
  import Text

  /** The characters ECMAScript's `\s` matches: WhiteSpace and LineTerminator, that is tab,
      line feed, vertical tab, form feed, carriage return, the space separators of Unicode
      category Zs, the byte order mark, and the line and paragraph separators. */
  predicate IsRegexWhitespace(c: char) {
    || c == '\t' || c == '\n' || c == '\U{000B}' || c == '\U{000C}' || c == '\r'
    || c == ' ' || c == '\U{00A0}' || c == '\U{1680}' || ('\U{2000}' <= c <= '\U{200A}')
    || c == '\U{2028}' || c == '\U{2029}' || c == '\U{202F}' || c == '\U{205F}'
    || c == '\U{3000}' || c == '\U{FEFF}'
  }

  /** The class `\s|[-().]` the cleaner removes. */
  predicate IsSeparator(c: char) {
    IsRegexWhitespace(c) || c == '-' || c == '(' || c == ')' || c == '.'
  }

  /** `formatPhoneNumber`. */
  function FormatPhoneNumber(phoneNumber: Nullish<string>): (r: Option<string>)
    ensures !TruthyNullish(phoneNumber) <==> r == None
    ensures r.Some? ==> forall i :: 0 <= i < |r.value| ==> !IsSeparator(r.value[i])
    ensures r.Some? ==> |r.value| <= |phoneNumber.value|
    ensures r.Some? ==> (r.value == phoneNumber.value <==>
      forall i :: 0 <= i < |phoneNumber.value| ==> !IsSeparator(phoneNumber.value[i]))
  {
    if !TruthyNullish(phoneNumber) then None
    else Some(Text.RemoveAll(phoneNumber.value, IsSeparator))
  }

  /** The characters that remain are the input's other characters in their original order. */
  lemma FormatPhoneKeepsOrder(phoneNumber: string)
    requires phoneNumber != ""
    ensures Text.IsSubsequence(FormatPhoneNumber(Present(phoneNumber)).value, phoneNumber)
    ensures |FormatPhoneNumber(Present(phoneNumber)).value| ==
      |phoneNumber| - Text.Count(phoneNumber, IsSeparator)
  {
    Text.RemoveAllIsSubsequence(phoneNumber, IsSeparator);
  }

  /** Cleaning a non-empty result again gives the same result. An empty result is the
      exception: cleaning `""` gives undefined. */
  lemma FormatPhoneIdempotent(phoneNumber: Nullish<string>)
    ensures var r := FormatPhoneNumber(phoneNumber);
      r.Some? && r.value != "" ==> FormatPhoneNumber(Present(r.value)) == r
    ensures var r := FormatPhoneNumber(phoneNumber);
      r == Some("") ==> FormatPhoneNumber(Present(r.value)) == None
  {  }
}

=== FILE: guards.dfy ===
/**
 The route guards of src/auth/guard.tsx. Both decide from the stored credential alone
 (through `isAuthenticated` of the credential store), never from the session reducer: a
 guard is a function of the store and its children. `<Navigate to=… replace />` becomes a
 returned navigation value. Paths are sequences of non-empty segments (`/sign-in` is
 `["sign-in"]`, `/` is `[]`).
 */
module Guards {
  import opened Js
  import Storage

  type Path = seq<string>

  const SignInPath: Path := ["sign-in"]
  const HomePath: Path := ["home"]

  /** What a guard renders: a redirect, or its children unchanged. */
  datatype Rendered<C> = Navigate(to: Path, replace: bool) | Render(children: C)

  /** `RequireAuth`: with no truthy stored token, a history-replacing redirect to the sign-in
      page; otherwise the children. It throws whenever reading the store throws. */
  function RequireAuth<C>(store: Storage.Store, children: C): (r: Result<Rendered<C>>)
    ensures r.Fail? <==> Storage.GetAccessToken(store).Fail?
    ensures r == Ok(Render(children)) <==> Storage.IsAuthenticated(store) == Ok(true)
    ensures r.Ok? && r.value.Navigate? ==> r.value == Navigate(SignInPath, true)
  {
    var authenticated :- Storage.IsAuthenticated(store);
    if !authenticated then Ok(Navigate(SignInPath, true)) else Ok(Render(children))
  }

  /** `RequireNotAuth`: with a truthy stored token, a history-replacing redirect to the home
      page; otherwise the children. */
  function RequireNotAuth<C>(store: Storage.Store, children: C): (r: Result<Rendered<C>>)
    ensures r.Fail? <==> Storage.GetAccessToken(store).Fail?
    ensures r == Ok(Render(children)) <==> Storage.IsAuthenticated(store) == Ok(false)
    ensures r.Ok? && r.value.Navigate? ==> r.value == Navigate(HomePath, true)
  {
    var authenticated :- Storage.IsAuthenticated(store);
    if authenticated then Ok(Navigate(HomePath, true)) else Ok(Render(children))
  }

  /** Whenever the store can be read, exactly one of the two guards renders its children;
      when it cannot, both throw. */
  lemma ExactlyOneGuardRenders<C>(store: Storage.Store, children: C)
    ensures Storage.GetAccessToken(store).Ok? ==>
      (RequireAuth(store, children).value.Render? <==> !RequireNotAuth(store, children).value.Render?)
    ensures Storage.GetAccessToken(store).Fail? ==>
      RequireAuth(store, children).Fail? && RequireNotAuth(store, children).Fail?
  {
  }

  /** Removing the credential always sends `RequireAuth` to the sign-in page, and saving a
      non-empty token always lets it render. */
  lemma GuardFollowsStorageWrites<C>(store: Storage.Store, token: string, children: C)
    ensures RequireAuth(Storage.RemoveAccessToken(store), children) == Ok(Navigate(SignInPath, true))
    ensures RequireNotAuth(Storage.RemoveAccessToken(store), children) == Ok(Render(children))
    ensures token != "" ==>
      RequireAuth(Storage.SaveAccessToken(store, Storage.AccessTokenContext(token)), children)
        == Ok(Render(children))
  {
  }
}

=== FILE: interceptors.dfy ===
/**
 The interceptors of src/hooks/use-axios-interceptors.tsx. Outbound, a request configuration
 gets the bearer header when a truthy token is stored. Inbound, successful responses pass
 through and every failure is re-rejected with the original error; a 401 whose application
 code is not allowlisted enters the forced-logout hook point, whose body is empty. The hook
 registers both interceptors on every render of the application, so stacks of them are
 modelled too.
 */
module Interceptors {
  import opened Js
  import Storage

  /** An outbound request configuration: its headers and the fields the hook never reads. */
  datatype RequestConfig =
    RequestConfig(url: string, verb: string, headers: map<string, string>, body: Nullish<string>)

  /** The body of a failed response, as far as the handlers read it. */
  datatype ErrorData = ErrorData(message: Nullish<string>, msg: Nullish<string>)

  datatype ErrorResponse = ErrorResponse(status: int, data: Nullish<ErrorData>)

  /** A request failure: a response when the server answered, none for a network error. */
  datatype HttpError = HttpError(response: Option<ErrorResponse>)

  datatype Response = Response(status: int, body: string)

  /** How an interceptor's promise settles. */
  datatype Settlement<+T, +E> = Resolved(value: T) | Rejected(reason: E)

  /** The request hook: reads the stored token at call time; with a truthy token it sets the
      Authorization header to the bearer value, otherwise it returns the configuration as
      is. It never changes any other field or header, and throws when reading the store does. */
  function OnRequest(store: Storage.Store, config: RequestConfig): (r: Result<RequestConfig>)
    ensures r.Fail? <==> Storage.GetAccessToken(store).Fail?
    ensures r.Ok? && TruthyOption(Storage.GetAccessToken(store).value) ==>
      var token := Storage.GetAccessToken(store).value.value;
      && Storage.AuthorizationHeader in r.value.headers
      && r.value.headers[Storage.AuthorizationHeader] == "Bearer " + token
    ensures r.Ok? && !TruthyOption(Storage.GetAccessToken(store).value) ==> r.value == config
    ensures r.Ok? ==>
      r.value.url == config.url && r.value.verb == config.verb && r.value.body == config.body
    ensures r.Ok? ==> forall h :: h != Storage.AuthorizationHeader ==>
      && (h in r.value.headers <==> h in config.headers)
      && (h in config.headers ==> r.value.headers[h] == config.headers[h])
  {
    var accessToken :- Storage.GetAccessToken(store);
    if TruthyOption(accessToken) then
      var bearer := Storage.Bearer(accessToken.value);
      Ok(config.(headers := config.headers[Storage.AuthorizationHeader := bearer]))
    else Ok(config)
  }

  /** The request hook applied by `n` stacked registrations, over a store that reads. */
  function ApplyRequestHooks(store: Storage.Store, config: RequestConfig, n: nat): RequestConfig
    requires Storage.GetAccessToken(store).Ok?
    decreases n
  {
    if n == 0 then config else OnRequest(store, ApplyRequestHooks(store, config, n - 1)).value
  }

  /** One application on top of another changes nothing more. */
  lemma OnRequestIdempotent(store: Storage.Store, config: RequestConfig)
    requires Storage.GetAccessToken(store).Ok?
    ensures OnRequest(store, OnRequest(store, config).value) == OnRequest(store, config)
  {
    var token := Storage.GetAccessToken(store).value;
    if TruthyOption(token) {
      var headers := config.headers[Storage.AuthorizationHeader := Storage.Bearer(token.value)];
      assert headers[Storage.AuthorizationHeader := Storage.Bearer(token.value)] == headers;
    }
  }

  /** However many times the hook was registered (at least once), the request leaves with the
      same configuration as after a single application. */
  lemma {:induction false} StackedRequestHooks(store: Storage.Store, config: RequestConfig, n: nat)
    requires Storage.GetAccessToken(store).Ok?
    requires n >= 1
    ensures ApplyRequestHooks(store, config, n) == OnRequest(store, config).value
    decreases n
  {
    if n > 1 {
      StackedRequestHooks(store, config, n - 1);
      OnRequestIdempotent(store, config);
    }
  }

  /** The request-error handler as written: it calls `Promise.reject(error)` without
      returning it, so the handler returns `undefined` and its stage resolves with it. */
  function OnRequestError<E>(error: E): Settlement<Nullish<RequestConfig>, E> {
    Resolved(Undefined)
  }

  /** The request-error handler as evidently intended: it propagates the rejection. */
  function OnRequestErrorPropagating<E>(error: E): Settlement<Nullish<RequestConfig>, E> {
    Rejected(error)
  }

  /** For any error at all, the written handler swallows it and the intended one rejects with it. */
  lemma RequestErrorSwallowed<E>(error: E)
    ensures OnRequestError(error) != OnRequestErrorPropagating(error)
    ensures OnRequestErrorPropagating(error).Rejected?
    ensures OnRequestErrorPropagating(error).reason == error
  {
  }

  /** Which of the two request-error handlers the registrations use. */
  datatype RequestErrorHandler = AsWritten | Propagating

  /** The request hook on whatever the previous stage resolved with, which after a swallowed
      error is `undefined`. It reads the token first; setting the header on a missing
      configuration throws. */
  function RequestHook(store: Storage.Store, config: Nullish<RequestConfig>)
    : (r: Result<Nullish<RequestConfig>>)
    ensures Storage.GetAccessToken(store).Fail? ==> r == Fail(StorageParseError)
    ensures config.Present? ==>
      && (r.Ok? <==> OnRequest(store, config.value).Ok?)
      && (r.Ok? ==> r.value == Present(OnRequest(store, config.value).value))
    ensures config.IsNullish() && Storage.GetAccessToken(store).Ok? ==>
      if TruthyOption(Storage.GetAccessToken(store).value) then r == Fail(TypeErrorOnUndefined)
      else r == Ok(config)
  {
    var accessToken :- Storage.GetAccessToken(store);
    if !TruthyOption(accessToken) then Ok(config)
    else
      match config
      case Present(c) =>
        var bearer := Storage.Bearer(accessToken.value);
        Ok(Present(c.(headers := c.headers[Storage.AuthorizationHeader := bearer])))
      case _ => Fail(TypeErrorOnUndefined)
  }

  /** One registration in axios's request chain: `then(hook, handler)`. A settled value goes
      to the hook, whose exception becomes the rejection; a rejection from an earlier stage
      goes to the handler. */
  function RequestStage(
    store: Storage.Store, s: Settlement<Nullish<RequestConfig>, Error>, handler: RequestErrorHandler)
    : Settlement<Nullish<RequestConfig>, Error>
  {
    match s
    case Resolved(config) =>
      (match RequestHook(store, config)
       case Ok(next) => Resolved(next)
       case Fail(error) => Rejected(error))
    case Rejected(error) =>
      if handler == AsWritten then OnRequestError(error) else OnRequestErrorPropagating(error)
  }

  /** `n` stacked registrations, starting from the caller's configuration. */
  function RequestChain(
    store: Storage.Store, config: RequestConfig, n: nat, handler: RequestErrorHandler)
    : Settlement<Nullish<RequestConfig>, Error>
    decreases n
  {
    if n == 0 then Resolved(Present(config))
    else RequestStage(store, RequestChain(store, config, n - 1, handler), handler)
  }

  /** What the caller's request ends with: the configuration sent, or the error it rejects with. */
  datatype Outgoing = Sent(config: RequestConfig) | Failed(error: Error)

  /** The last link, `dispatchRequest`: it sends a configuration, throws on a missing one while
      normalising its headers, and has no rejection handler, so a rejection passes through. */
  function DispatchRequest(s: Settlement<Nullish<RequestConfig>, Error>): Outgoing {
    match s
    case Resolved(Present(config)) => Sent(config)
    case Resolved(_) => Failed(TypeErrorOnUndefined)
    case Rejected(error) => Failed(error)
  }

  function Send(store: Storage.Store, config: RequestConfig, n: nat, handler: RequestErrorHandler)
    : Outgoing
  {
    DispatchRequest(RequestChain(store, config, n, handler))
  }

  /** Over a readable store no stage rejects, so the chain computes the stacked hooks. */
  lemma {:induction false} ChainFollowsHooks(
    store: Storage.Store, config: RequestConfig, n: nat, handler: RequestErrorHandler)
    requires Storage.GetAccessToken(store).Ok?
    ensures RequestChain(store, config, n, handler) ==
      Resolved(Present(ApplyRequestHooks(store, config, n)))
    decreases n
  {
    if n > 0 {
      ChainFollowsHooks(store, config, n - 1, handler);
    }
  }

  /** Over a readable store, with either handler and any number of registrations, the request
      is sent with the configuration of a single application of the hook. */
  lemma ReadableChainSends(
    store: Storage.Store, config: RequestConfig, n: nat, handler: RequestErrorHandler)
    requires Storage.GetAccessToken(store).Ok?
    requires n >= 1
    ensures Send(store, config, n, handler) == Sent(OnRequest(store, config).value)
  {
    ChainFollowsHooks(store, config, n, handler);
    StackedRequestHooks(store, config, n);
  }

  /** With the corrected handler, a storage read failure reaches the caller as that failure,
      however many times the interceptors were registered. */
  lemma {:induction false} CorrectedChainRejects(store: Storage.Store, config: RequestConfig, n: nat)
    requires Storage.GetAccessToken(store).Fail?
    requires n >= 1
    ensures RequestChain(store, config, n, Propagating) == Rejected(StorageParseError)
    ensures Send(store, config, n, Propagating) == Failed(StorageParseError)
    decreases n
  {
    if n > 1 {
      CorrectedChainRejects(store, config, n - 1);
    }
  }

  /** As written, the storage failure of one stage is swallowed by the next registration's
      handler, which hands `undefined` on: with an even number of registrations the request
      fails with a TypeError instead, and with an odd number the last hook throws a fresh
      storage error. The original error never reaches the caller through a swallowing stage. */
  lemma {:induction false} AsWrittenChainAlternates(store: Storage.Store, config: RequestConfig, n: nat)
    requires Storage.GetAccessToken(store).Fail?
    requires n >= 1
    ensures RequestChain(store, config, n, AsWritten) ==
      if n % 2 == 1 then Rejected(StorageParseError) else Resolved(Undefined)
    ensures n % 2 == 0 ==> Send(store, config, n, AsWritten) == Failed(TypeErrorOnUndefined)
    decreases n
  {
    if n > 1 {
      AsWrittenChainAlternates(store, config, n - 1);
    }
  }

  /** The one application code a 401 may carry without reaching the logout hook point. */
  const Allowlist: seq<string> := ["INVALID_CREDENTIALS"]

  /** `error?.response?.data?.message`. */
  function ErrorCode(error: HttpError): (r: Nullish<string>)
    ensures error.response.None? ==> r == Undefined
    ensures error.response.Some? && error.response.value.data.Present? ==>
      r == error.response.value.data.value.message
    ensures error.response.Some? && error.response.value.data.IsNullish() ==> r == Undefined
  {
    match error.response
    case None => Undefined
    case Some(response) =>
      match response.data
      case Present(data) => data.message
      case _ => Undefined
  }

  /** Which way the response-error handler branches. */
  datatype Branch = LogoutHookPoint | PassOn

  /** The response-error handler's effect on session or storage. `ForceLogout` is what the
      commented-out `logout()` at the hook point would do; as written the handler always has
      `NoEffect`. */
  datatype Effect = NoEffect | ForceLogout

  datatype Inbound =
    Inbound(settlement: Settlement<Response, HttpError>, branch: Branch, effect: Effect)

  /** The response-error handler: it enters the hook point exactly for a 401 whose code is not
      allowlisted (an absent code included), does nothing there, and re-rejects with the
      original error in every case. */
  function OnResponseError(error: HttpError): (r: Inbound)
    ensures r.settlement == Rejected(error)
    ensures r.effect == NoEffect
    ensures r.branch == LogoutHookPoint <==>
      && error.response.Some? && error.response.value.status == 401
      && ErrorCode(error) != Present("INVALID_CREDENTIALS")
  {
    var code := ErrorCode(error);
    var listed := code.Present? && code.value in Allowlist;
    if error.response.Some? && error.response.value.status == 401 && !listed then
      Inbound(Rejected(error), LogoutHookPoint, NoEffect)
    else Inbound(Rejected(error), PassOn, NoEffect)
  }

  /** The response stage of one registration: successes through the identity handler,
      failures through the error handler. */
  function ResponseStage(s: Settlement<Response, HttpError>): Settlement<Response, HttpError> {
    match s
    case Resolved(response) => Resolved(response)
    case Rejected(error) => OnResponseError(error).settlement
  }

  /** `n` stacked response stages. */
  function ApplyResponseStages(s: Settlement<Response, HttpError>, n: nat)
    : Settlement<Response, HttpError>
    decreases n
  {
    if n == 0 then s else ResponseStage(ApplyResponseStages(s, n - 1))
  }

  /** Through any number of stacked response interceptors, a success reaches the caller as the
      same response and a failure as a rejection with the same error. */
  lemma {:induction false} StackedResponseStages(s: Settlement<Response, HttpError>, n: nat)
    ensures ApplyResponseStages(s, n) == s
    decreases n
  {
    if n > 0 {
      StackedResponseStages(s, n - 1);
    }
  }
}

=== FILE: js.dfy ===
/**
 JavaScript values as the session code sees them. An optional property (`user?: User`) is an
 `Option`. A field typed `null | T` that may also be missing at run time is a `Nullish`, which
 keeps `null` and `undefined` apart because `?.` and `??` treat them differently from `||`.
 A call that may throw returns a `Result`, and `:-` passes the exception on.
 */
module Js {

  /** An optional property: `undefined` or a value. */
  datatype Option<+T> = None | Some(value: T) {

    /** The `??` operator: this value when present, otherwise `default`. */
    function Or(default: T): T {
      match this
      case Some(v) => v
      case None => default
    }

    /** The `??` operator between two optional values, as in `payload ?? user`. */
    function OrElse(fallback: Option<T>): (r: Option<T>)
      ensures Some? ==> r == this
      ensures None? ==> r == fallback
    {
      if Some? then this else fallback
    }
  }

  /** A `null | T` value that may also be `undefined`. */
  datatype Nullish<+T> = Undefined | Null | Present(value: T) {

    /** True for `null` and `undefined`, the two values `??` and `?.` treat as absent. */
    predicate IsNullish() {
      !Present?
    }

    /** The `??` operator. */
    function Or(default: T): T {
      match this
      case Present(v) => v
      case _ => default
    }
  }

  /** The exceptions the modelled code can raise. */
  datatype Error =
    | StorageParseError   // `JSON.parse` rejected the stored credential
    | MissingProvider     // `useAuth` called with no dispatcher in the context
    | TypeErrorOnUndefined  // a property read on `undefined`

  /** A call that returns a value or throws. */
  datatype Result<+T> = Ok(value: T) | Fail(error: Error) {

    predicate IsFailure() {
      Fail?
    }

    function PropagateFailure<U>(): Result<U>
      requires Fail?
    {
      Fail(error)
    }

    function Extract(): T
      requires Ok?
    {
      value
    }
  }

  /** JavaScript truthiness of a string: only the empty string is falsy. */
  predicate TruthyString(s: string) {
    s != ""
  }

  /** JavaScript truthiness of an optional string (`!!x`). */
  predicate TruthyOption(o: Option<string>) {
    o.Some? && TruthyString(o.value)
  }

  /** JavaScript truthiness of a nullable string. */
  predicate TruthyNullish(n: Nullish<string>) {
    n.Present? && TruthyString(n.value)
  }
}

=== FILE: profile.dfy ===
/**
 The two transforms of the profile page, src/pages/app/account/profile.tsx: `submit`, which
 turns the form values into the update payload, and the prefill effect, which copies the
 session user into the form. The `brazilian-values` formatters the prefill calls are
 parameters.
 */
module Profile {
  import opened Js
  import Text
  import Phone
  import Session

  /** The form values (and, with `id` set, the update payload). */
  datatype FormData = FormData(
    id: Nullish<int>,
    name: Nullish<string>,
    nickname: Nullish<string>,
    email: Nullish<string>,
    phone: Nullish<string>,
    document: Nullish<string>,
    photo: Nullish<string>,
    facebookUrl: Nullish<string>,
    instagramUrl: Nullish<string>,
    telegramGroupUrl: Nullish<string>,
    whatsappGroupUrl: Nullish<string>,
    tiktokUrl: Nullish<string>,
    youtubeUrl: Nullish<string>)

  /** `\D`: anything but an ASCII digit. */
  predicate IsNonDigit(c: char) {
    !('0' <= c <= '9')
  }

  /** `undefined | string` as a form value. */
  function FromOption(o: Option<string>): (r: Nullish<string>)
    ensures o.None? <==> r == Undefined
    ensures o.Some? ==> r == Present(o.value)
  {
    match o
    case None => Undefined
    case Some(s) => Present(s)
  }

  /** `data.document?.replace(/\D/g, '')`: a present document keeps its digits only; the
      optional chain turns both `null` and `undefined` into `undefined`. */
  function DigitsOnly(document: Nullish<string>): (r: Nullish<string>)
    ensures document.IsNullish() <==> r == Undefined
    ensures r.Present? ==> forall i :: 0 <= i < |r.value| ==> '0' <= r.value[i] <= '9'
    ensures r.Present? ==> Text.IsSubsequence(r.value, document.value)
    ensures r.Present? ==> |r.value| == |document.value| - Text.Count(document.value, IsNonDigit)
  {
    match document
    case Present(d) =>
      Text.RemoveAllIsSubsequence(d, IsNonDigit);
      Present(Text.RemoveAll(d, IsNonDigit))
    case _ => Undefined
  }

  /** `submit`: without a session user nothing is sent; otherwise the payload is the form with
      the phone cleaned, the document reduced to digits and the id taken from the user. */
  function Submit(user: Option<Session.User>, data: FormData): (r: Option<FormData>)
    ensures user.None? <==> r.None?
    ensures r.Some? ==> r.value.id == Present(user.value.id)
    ensures r.Some? ==> r.value.phone == FromOption(Phone.FormatPhoneNumber(data.phone))
    ensures r.Some? ==> r.value.document == DigitsOnly(data.document)
    // every other field is forwarded unchanged
    ensures r.Some? ==> r.value.(id := data.id, phone := data.phone, document := data.document) == data
  {
    match user
    case None => None
    case Some(u) =>
      Some(data.(
        phone := FromOption(Phone.FormatPhoneNumber(data.phone)),
        document := DigitsOnly(data.document),
        id := Present(u.id)))
  }

  /** Submitting an already submitted payload again changes nothing, unless the phone cleaned
      to the empty string, which a second pass turns into undefined. */
  lemma SubmitIdempotent(user: Session.User, data: FormData)
    ensures var once := Submit(Some(user), data).value;
      once.phone != Present("") ==> Submit(Some(user), once) == Some(once)
    ensures var once := Submit(Some(user), data).value;
      once.phone == Present("") ==> Submit(Some(user), once).value.phone == Undefined
  {  }

  /** The two library formatters the prefill applies. */
  datatype Formatters = Formatters(toPhone: string -> Nullish<string>, toCpf: string -> Nullish<string>)

  /** `value ? value : null` for a prefilled field. */
  function NullIfFalsy(value: Nullish<string>): (r: Nullish<string>)
    ensures TruthyNullish(value) ==> r == value
    ensures !TruthyNullish(value) ==> r == Null
  {
    if TruthyNullish(value) then value else Null
  }

  /** The prefill effect: with no user the form is left as it is; otherwise the twelve fields
      are set from the user and the form's `id` is left alone. */
  function Prefill(user: Option<Session.User>, form: FormData, format: Formatters): (r: FormData)
    ensures user.None? ==> r == form
    ensures user.Some? ==>
      var u := user.value;
      && r.id == form.id
      && r.name == Present(u.name) && r.nickname == u.nickname && r.email == u.email
      && r.phone == Present(format.toPhone(u.phone.Or("")).Or(""))
      && r.document == Present(format.toCpf(u.document.Or("")).Or(""))
    // photo and the social links: kept when truthy, `null` otherwise
    ensures user.Some? ==>
      var u := user.value;
      && (TruthyNullish(u.photo) ==> r.photo == u.photo)
      && (!TruthyNullish(u.photo) ==> r.photo == Null)
      && (TruthyNullish(u.facebookUrl) ==> r.facebookUrl == u.facebookUrl)
      && (!TruthyNullish(u.facebookUrl) ==> r.facebookUrl == Null)
      && (TruthyNullish(u.instagramUrl) ==> r.instagramUrl == u.instagramUrl)
      && (!TruthyNullish(u.instagramUrl) ==> r.instagramUrl == Null)
      && (TruthyNullish(u.telegramGroupUrl) ==> r.telegramGroupUrl == u.telegramGroupUrl)
      && (!TruthyNullish(u.telegramGroupUrl) ==> r.telegramGroupUrl == Null)
      && (TruthyNullish(u.whatsappGroupUrl) ==> r.whatsappGroupUrl == u.whatsappGroupUrl)
      && (!TruthyNullish(u.whatsappGroupUrl) ==> r.whatsappGroupUrl == Null)
      && (TruthyNullish(u.tiktokUrl) ==> r.tiktokUrl == u.tiktokUrl)
      && (!TruthyNullish(u.tiktokUrl) ==> r.tiktokUrl == Null)
      && (TruthyNullish(u.youtubeUrl) ==> r.youtubeUrl == u.youtubeUrl)
      && (!TruthyNullish(u.youtubeUrl) ==> r.youtubeUrl == Null)
  {
    match user
    case None => form
    case Some(u) =>
      FormData(
        form.id,
        Present(u.name),
        u.nickname,
        u.email,
        Present(format.toPhone(u.phone.Or("")).Or("")),
        Present(format.toCpf(u.document.Or("")).Or("")),
        NullIfFalsy(u.photo),
        NullIfFalsy(u.facebookUrl),
        NullIfFalsy(u.instagramUrl),
        NullIfFalsy(u.telegramGroupUrl),
        NullIfFalsy(u.whatsappGroupUrl),
        NullIfFalsy(u.tiktokUrl),
        NullIfFalsy(u.youtubeUrl))
  }

  /** Submitting an untouched prefilled form sends the user's own id, name, nickname, email,
      photo and links (falsy ones as `null`), and a digits-only document. */
  lemma PrefillThenSubmit(user: Session.User, form: FormData, format: Formatters)
    ensures var sent := Submit(Some(user), Prefill(Some(user), form, format));
      && sent.Some?
      && sent.value.id == Present(user.id)
      && sent.value.name == Present(user.name)
      && sent.value.nickname == user.nickname
      && sent.value.email == user.email
      && sent.value.photo == NullIfFalsy(user.photo)
      && sent.value.facebookUrl == NullIfFalsy(user.facebookUrl)
      && sent.value.instagramUrl == NullIfFalsy(user.instagramUrl)
      && sent.value.telegramGroupUrl == NullIfFalsy(user.telegramGroupUrl)
      && sent.value.whatsappGroupUrl == NullIfFalsy(user.whatsappGroupUrl)
      && sent.value.tiktokUrl == NullIfFalsy(user.tiktokUrl)
      && sent.value.youtubeUrl == NullIfFalsy(user.youtubeUrl)
      && sent.value.document.Present?
      && forall i :: 0 <= i < |sent.value.document.value| ==> '0' <= sent.value.document.value[i] <= '9'
  {
  }
}

=== FILE: routes.dfy ===
/**
 The route table of src/routes.tsx as a resolver from a path to the element it renders,
 and the navigation that follows when that element, or the guard around it, redirects.
 The table has seven guarded pages and a `*` fallback that redirects to `/home`; no two of
 its patterns match the same path, so the router's ranking of routes reduces to taking the
 one route that matches, or the fallback.
 */
module Routing {
  import opened Js
  import Storage
  import Guards

  type Path = Guards.Path

  datatype Page =
    | HomePage | ProfilePage | SigninPage | ResetPasswordPage | SignupPage | RecoverPage
    | CreateCampaignPage

  datatype Guard = NeedsAuth | NeedsNoAuth

  /** A route's element: a page wrapped in one of the two guards, or a redirect. */
  datatype Element = Guarded(guard: Guard, page: Page) | Redirect(to: Path, replace: bool)

  /** A pattern segment: literal text, or a `:name` parameter matching one non-empty segment. */
  datatype Segment = Lit(text: string) | Param(name: string)

  datatype Route = Route(pattern: seq<Segment>, element: Element)

  type Params = map<string, string>

  /** The table, in source order; `/create-campaign` is its index child route flattened. */
  const Table: seq<Route> := [
    Route([Lit("home")], Guarded(NeedsAuth, HomePage)),
    Route([Lit("profile")], Guarded(NeedsAuth, ProfilePage)),
    Route([Lit("sign-in")], Guarded(NeedsNoAuth, SigninPage)),
    Route([Lit("reset-password"), Param("token")], Guarded(NeedsNoAuth, ResetPasswordPage)),
    Route([Lit("sign-up")], Guarded(NeedsNoAuth, SignupPage)),
    Route([Lit("recover")], Guarded(NeedsNoAuth, RecoverPage)),
    Route([Lit("create-campaign")], Guarded(NeedsAuth, CreateCampaignPage))
  ]

  /** The `*` route. */
  const Fallback: Element := Redirect(Guards.HomePath, true)

  /** Matches a pattern against a whole path, binding its parameters. */
  function MatchPattern(pattern: seq<Segment>, path: Path): (r: Option<Params>)
    ensures r.Some? ==> |path| == |pattern|
    decreases |pattern|
  {
    if pattern == [] then
      if path == [] then Some(map[]) else None
    else if path == [] then None
    else
      match pattern[0]
      case Lit(text) =>
        if path[0] == text then MatchPattern(pattern[1..], path[1..]) else None
      case Param(name) =>
        if path[0] == "" then None
        else
          match MatchPattern(pattern[1..], path[1..])
          case None => None
          case Some(rest) => Some(rest[name := path[0]])
  }

  datatype Resolved = Resolved(element: Element, params: Params)

  function FirstMatch(routes: seq<Route>, path: Path): Option<Resolved>
    decreases |routes|
  {
    if routes == [] then None
    else
      match MatchPattern(routes[0].pattern, path)
      case Some(params) => Some(Resolved(routes[0].element, params))
      case None => FirstMatch(routes[1..], path)
  }

  /** The paths the table lists, stated independently of the matcher. */
  predicate InTable(path: Path) {
    || path == ["home"] || path == ["profile"] || path == ["sign-in"] || path == ["sign-up"]
    || path == ["recover"] || path == ["create-campaign"]
    || (|path| == 2 && path[0] == "reset-password" && path[1] != "")
  }

  /** The pages the table wraps in `RequireAuth`. */
  predicate Protected(page: Page) {
    page == HomePage || page == ProfilePage || page == CreateCampaignPage
  }

  /** Resolves a path to its element. */
  function Resolve(path: Path): (r: Resolved)
    ensures path == ["home"] ==> r == Resolved(Guarded(NeedsAuth, HomePage), map[])
    ensures path == ["profile"] ==> r == Resolved(Guarded(NeedsAuth, ProfilePage), map[])
    ensures path == ["create-campaign"] ==> r == Resolved(Guarded(NeedsAuth, CreateCampaignPage), map[])
    ensures path == ["sign-in"] ==> r == Resolved(Guarded(NeedsNoAuth, SigninPage), map[])
    ensures path == ["sign-up"] ==> r == Resolved(Guarded(NeedsNoAuth, SignupPage), map[])
    ensures path == ["recover"] ==> r == Resolved(Guarded(NeedsNoAuth, RecoverPage), map[])
    // `:token` matches exactly one extra non-empty segment and binds it
    ensures |path| == 2 && path[0] == "reset-password" && path[1] != "" ==>
      r == Resolved(Guarded(NeedsNoAuth, ResetPasswordPage), map["token" := path[1]])
    // everything else, `/` included, takes the fallback
    ensures !InTable(path) <==> r == Resolved(Fallback, map[])
    // a page is guarded by RequireAuth exactly when it is one of the protected pages
    ensures r.element.Guarded? ==> (r.element.guard == NeedsAuth <==> Protected(r.element.page))
  {
    ResolveCases(path);
    match FirstMatch(Table, path)
    case Some(resolved) => resolved
    case None => Resolved(Fallback, map[])
  }

  /** The table's routes, listed one by one, without the matcher. */
  function Listed(path: Path): Option<Resolved> {
    if path == ["home"] then Some(Resolved(Guarded(NeedsAuth, HomePage), map[]))
    else if path == ["profile"] then Some(Resolved(Guarded(NeedsAuth, ProfilePage), map[]))
    else if path == ["sign-in"] then Some(Resolved(Guarded(NeedsNoAuth, SigninPage), map[]))
    else if |path| == 2 && path[0] == "reset-password" && path[1] != "" then
      Some(Resolved(Guarded(NeedsNoAuth, ResetPasswordPage), map["token" := path[1]]))
    else if path == ["sign-up"] then Some(Resolved(Guarded(NeedsNoAuth, SignupPage), map[]))
    else if path == ["recover"] then Some(Resolved(Guarded(NeedsNoAuth, RecoverPage), map[]))
    else if path == ["create-campaign"] then Some(Resolved(Guarded(NeedsAuth, CreateCampaignPage), map[]))
    else None
  }

  /** A one-literal pattern matches exactly the one-segment path with that text. */
  lemma MatchLiteral(text: string, path: Path)
    ensures MatchPattern([Lit(text)], path) == if path == [text] then Some(map[]) else None
  {  }

  /** A literal followed by a parameter matches two segments, the second non-empty, and
      binds the parameter to the second. */
  lemma MatchLiteralParam(text: string, name: string, path: Path)
    ensures MatchPattern([Lit(text), Param(name)], path) ==
      if |path| == 2 && path[0] == text && path[1] != "" then Some(map[name := path[1]]) else None
  {
    var pattern := [Lit(text), Param(name)];
    if path != [] && path[0] == text {
      assert pattern[1..] == [Param(name)];
      var rest := path[1..];
      if rest != [] && rest[0] != "" {
        assert [Param(name)][1..] == [];
        assert MatchPattern([Param(name)][1..], rest[1..]) == if rest[1..] == [] then Some(map[]) else None;
      }
    }
  }

  /** The matcher over the table agrees with the listing. */
  lemma ResolveCases(path: Path)
    ensures FirstMatch(Table, path) == Listed(path)
  {
    var t := Table;
    MatchLiteral("home", path);
    MatchLiteral("profile", path);
    MatchLiteral("sign-in", path);
    MatchLiteralParam("reset-password", "token", path);
    MatchLiteral("sign-up", path);
    MatchLiteral("recover", path);
    MatchLiteral("create-campaign", path);
    assert t[7..] == [];
    assert t[6..][1..] == t[7..];
    assert t[5..][1..] == t[6..];
    assert t[4..][1..] == t[5..];
    assert t[3..][1..] == t[4..];
    assert t[2..][1..] == t[3..];
    assert t[1..][1..] == t[2..];
    assert FirstMatch(t[6..], path) == if path == ["create-campaign"] then Listed(path) else None;
    assert FirstMatch(t[5..], path) == if path == ["recover"] then Listed(path) else FirstMatch(t[6..], path);
    assert FirstMatch(t[4..], path) == if path == ["sign-up"] then Listed(path) else FirstMatch(t[5..], path);
    assert FirstMatch(t[3..], path) ==
      if |path| == 2 && path[0] == "reset-password" && path[1] != "" then Listed(path)
      else FirstMatch(t[4..], path);
    assert FirstMatch(t[2..], path) == if path == ["sign-in"] then Listed(path) else FirstMatch(t[3..], path);
    assert FirstMatch(t[1..], path) == if path == ["profile"] then Listed(path) else FirstMatch(t[2..], path);
  }

  /** No path matches two routes of the table, so taking the first match agrees with any
      ranking of the routes. */
  lemma RoutesDisjoint(path: Path, i: nat, j: nat)
    requires i < j < |Table|
    ensures MatchPattern(Table[i].pattern, path).None? || MatchPattern(Table[j].pattern, path).None?
  {  }

  /** What visiting a path produces: a page on screen, or a redirect. */
  datatype Outcome = Show(page: Page, params: Params) | Redirected(to: Path, replace: bool)

  /** Renders the element a path resolves to, running its guard against the store. */
  function Visit(store: Storage.Store, path: Path): (r: Result<Outcome>)
    // a guarded page shows exactly when its guard lets it through
    ensures Resolve(path).element.Guarded? && Storage.IsAuthenticated(store).Ok? ==>
      (r.Ok? && r.value.Show? <==>
        (Resolve(path).element.guard == NeedsAuth <==> Storage.IsAuthenticated(store).value))
    ensures r.Ok? && r.value.Show? ==>
      && Resolve(path).element.Guarded?
      && r.value.page == Resolve(path).element.page
      && r.value.params == Resolve(path).params
    // a guard reads storage while rendering, so a guarded path throws exactly when that read does
    ensures InTable(path) ==> (r.Fail? <==> Storage.GetAccessToken(store).Fail?)
    // the fallback redirects without reading storage
    ensures !InTable(path) ==> r == Ok(Redirected(Guards.HomePath, true))
    ensures r.Fail? ==> Storage.GetAccessToken(store).Fail?
  {
    var resolved := Resolve(path);
    match resolved.element
    case Redirect(to, replace) => Ok(Redirected(to, replace))
    case Guarded(guard, page) =>
      var rendered :-
        if guard == NeedsAuth then Guards.RequireAuth(store, page)
        else Guards.RequireNotAuth(store, page);
      match rendered
      case Navigate(to, replace) => Ok(Redirected(to, replace))
      case Render(p) => Ok(Show(p, resolved.params))
  }

  /** Where following redirects ends: a page at a location, or still redirecting when the
      allowed number of redirects ran out. */
  datatype Landing =
    | Landed(location: Path, page: Page, params: Params)
    | StillRedirecting(location: Path)

  /** Visits a path and follows up to `hops` redirects. */
  function Settle(store: Storage.Store, path: Path, hops: nat): Result<Landing>
    decreases hops
  {
    var outcome :- Visit(store, path);
    match outcome
    case Show(page, params) => Ok(Landed(path, page, params))
    case Redirected(to, _) =>
      if hops == 0 then Ok(StillRedirecting(to)) else Settle(store, to, hops - 1)
  }

  /** Where a visit to `/home` or `/sign-in` lands, for a readable store and at least one
      redirect allowed. */
  lemma SettleAtHomeOrSignIn(store: Storage.Store, path: Path, hops: nat)
    requires Storage.GetAccessToken(store).Ok?
    requires path == Guards.HomePath || path == Guards.SignInPath
    requires hops >= 1
    ensures Settle(store, path, hops) ==
      if Storage.IsAuthenticated(store).value then Ok(Landed(Guards.HomePath, HomePage, map[]))
      else Ok(Landed(Guards.SignInPath, SigninPage, map[]))
  {
    var authenticated := Storage.IsAuthenticated(store).value;
    if authenticated {
      assert Visit(store, Guards.HomePath) == Ok(Show(HomePage, map[]));
      if path == Guards.SignInPath {
        assert Visit(store, path) == Ok(Redirected(Guards.HomePath, true));
        assert Settle(store, Guards.HomePath, hops - 1) == Ok(Landed(Guards.HomePath, HomePage, map[]));
      }
    } else {
      assert Visit(store, Guards.SignInPath) == Ok(Show(SigninPage, map[]));
      if path == Guards.HomePath {
        assert Visit(store, path) == Ok(Redirected(Guards.SignInPath, true));
        assert Settle(store, Guards.SignInPath, hops - 1) == Ok(Landed(Guards.SignInPath, SigninPage, map[]));
      }
    }
  }

  /** With a readable store every path lands on a page within two redirects, and the page
      it lands on is protected exactly when a truthy token is stored. An unknown path lands
      on the home page with a token and on the sign-in page without one. */
  lemma NavigationSettles(store: Storage.Store, path: Path)
    requires Storage.GetAccessToken(store).Ok?
    ensures var r := Settle(store, path, 2);
      && r.Ok? && r.value.Landed?
      && (Protected(r.value.page) <==> Storage.IsAuthenticated(store) == Ok(true))
      && (!InTable(path) && Storage.IsAuthenticated(store) == Ok(false) ==>
            r.value.location == Guards.SignInPath && r.value.page == SigninPage)
      && (!InTable(path) && Storage.IsAuthenticated(store) == Ok(true) ==>
            r.value.location == Guards.HomePath && r.value.page == HomePage)
  {
    var authenticated := Storage.IsAuthenticated(store).value;
    var visit := Visit(store, path);
    if !InTable(path) {
      SettleAtHomeOrSignIn(store, Guards.HomePath, 1);
    } else if visit.value.Redirected? {
      var element := Resolve(path).element;
      assert element.Guarded?;
      assert visit.value.to == Guards.HomePath || visit.value.to == Guards.SignInPath;
      SettleAtHomeOrSignIn(store, visit.value.to, 1);
    }
  }
}

=== FILE: session.dfy ===
/**
 The session store of src/store/auth.tsx: a reducer over `{isAuthenticated, user?}` with
 three action types, the context value the provider publishes, and the `useAuth` accessor.
 LOGOUT is the one action with a side effect: it removes the stored credential, so the
 reducer is modelled as a function of the store and the state to a new store and state.
 */
module Session {
  import opened Js
  import Storage

  /** The profile record the server returns for the signed-in user. `domain` and
      `deleted_at` are untyped in the source and are kept as nullable strings; `email` is
      declared a string but is read with `??`, so it is kept nullable too. */
  datatype User = User(
    id: int,
    name: string,
    document: Nullish<string>,
    birthday: Nullish<string>,
    phone: Nullish<string>,
    email: Nullish<string>,
    emailVerifiedAt: Nullish<string>,
    photo: Nullish<string>,
    nickname: Nullish<string>,
    domain: Nullish<string>,
    instagramUrl: Nullish<string>,
    facebookUrl: Nullish<string>,
    tiktokUrl: Nullish<string>,
    youtubeUrl: Nullish<string>,
    whatsappGroupUrl: Nullish<string>,
    telegramGroupUrl: Nullish<string>,
    createdAt: string,
    updatedAt: string,
    deletedAt: Nullish<string>)

  /** `AuthState`. Of the optional `dispatch` member only its presence matters here. */
  datatype AuthState = AuthState(isAuthenticated: bool, user: Option<User>, hasDispatch: bool)

  /** `initialState`, which is also the value of a context with no provider above it. */
  const InitialState: AuthState := AuthState(false, None, false)

  datatype ActionType = Login | Logout | SetUser | OtherType(tag: string)

  datatype Action = Action(kind: ActionType, payload: Option<User>)

  /** A reducer step: the state it returns and the store after its side effect. */
  datatype Reduced = Reduced(store: Storage.Store, state: AuthState)

  /** `authReducer`. */
  function Reduce(store: Storage.Store, state: AuthState, action: Action): (r: Reduced)
    // LOGIN authenticates; the payload replaces the user when given, else the user is kept
    ensures action.kind == Login ==>
      && r.state.isAuthenticated
      && r.state.user == (if action.payload.Some? then action.payload else state.user)
      && r.state.hasDispatch == state.hasDispatch
    // SET_USER replaces the user with the payload, even an absent one, and keeps the flag
    ensures action.kind == SetUser ==>
      && r.state.user == action.payload
      && r.state.isAuthenticated == state.isAuthenticated
      && r.state.hasDispatch == state.hasDispatch
    // LOGOUT resets to the unauthenticated state, without a dispatcher, and clears the token
    ensures action.kind == Logout ==>
      && r.state == AuthState(false, None, false)
      && Storage.GetAccessToken(r.store) == Ok(None)
      && Storage.SameOtherKeys(store, r.store)
    // LOGOUT is the only action that touches storage
    ensures action.kind != Logout ==> r.store == store
    // any other action type leaves the state as it is
    ensures action.kind.OtherType? ==> r.state == state
  {
    match action.kind
    case Login =>
      Reduced(store, state.(isAuthenticated := true, user := action.payload.OrElse(state.user)))
    case SetUser => Reduced(store, state.(user := action.payload))
    case Logout => Reduced(Storage.RemoveAccessToken(store), AuthState(false, None, false))
    case OtherType(_) => Reduced(store, state)
  }

  /** LOGIN without a payload is idempotent. */
  lemma LoginIdempotent(store: Storage.Store, state: AuthState)
    ensures var once := Reduce(store, state, Action(Login, None));
            Reduce(once.store, once.state, Action(Login, None)) == once
  {
  }

  /** LOGOUT is idempotent, and its result does not depend on the prior state. */
  lemma LogoutIdempotent(store: Storage.Store, state: AuthState, other: AuthState)
    ensures var once := Reduce(store, state, Action(Logout, None));
            && Reduce(once.store, once.state, Action(Logout, None)) == once
            && Reduce(store, other, Action(Logout, None)) == once
  {
  }

  /** What `useAuth` hands to its caller. */
  datatype AuthView = AuthView(isAuthenticated: bool, user: Option<User>)

  /** `useAuth`: throws when the context carries no dispatcher, otherwise exposes the
      session's flag and user. */
  function UseAuth(context: AuthState): (r: Result<AuthView>)
    ensures r.Fail? <==> !context.hasDispatch
    ensures r.Fail? ==> r.error == MissingProvider
    ensures r.Ok? ==> r.value.isAuthenticated == context.isAuthenticated && r.value.user == context.user
  {
    if !context.hasDispatch then Fail(MissingProvider)
    else Ok(AuthView(context.isAuthenticated, context.user))
  }

  /** `AuthProvider`'s context value: the reducer state with `dispatch` supplied again,
      whatever the state, so `useAuth` under the provider never throws. */
  function ProviderValue(state: AuthState): (r: AuthState)
    ensures UseAuth(r) == Ok(AuthView(state.isAuthenticated, state.user))
  {
    state.(hasDispatch := true)
  }

  /** Without a provider `useAuth` throws; after LOGOUT the state has lost its dispatcher,
      but the provider still re-supplies it. */
  lemma DispatcherAvailability(store: Storage.Store, state: AuthState)
    ensures UseAuth(InitialState) == Fail(MissingProvider)
    ensures var out := Reduce(store, state, Action(Logout, None));
            !out.state.hasDispatch && UseAuth(ProviderValue(out.state)).Ok?
  {
  }
}

=== FILE: signin.dfy ===
/**
 The sign-in mutation handlers of src/pages/auth/signin.tsx. On success the token from the
 response is saved as a `{token}` record, LOGIN is dispatched without a payload, and the app
 navigates to `/home`, in that order. On error a toast is shown and nothing else happens.
 */
module SignIn {
  import opened Js
  import Storage
  import Session
  import Guards
  import Interceptors

  /** The `{token}` body of a successful sign-in. */
  datatype SigninResponse = SigninResponse(token: string)

  datatype SuccessOutcome =
    SuccessOutcome(store: Storage.Store, state: Session.AuthState, navigation: Guards.Path)

  /** `onSuccess`. */
  function OnSuccess(store: Storage.Store, state: Session.AuthState, response: SigninResponse)
    : (r: SuccessOutcome)
    // the token reads back from storage, and the guards see it when it is non-empty
    ensures Storage.GetAccessToken(r.store) == Ok(Some(response.token))
    ensures Storage.IsAuthenticated(r.store) == Ok(response.token != "")
    ensures Storage.SameOtherKeys(store, r.store)
    // LOGIN without a payload: authenticated, and any previous user kept
    ensures r.state.isAuthenticated
    ensures r.state.user == state.user && r.state.hasDispatch == state.hasDispatch
    ensures r.navigation == Guards.HomePath
  {
    var saved := Storage.SaveAccessToken(store, Storage.AccessTokenContext(response.token));
    var reduced := Session.Reduce(saved, state, Session.Action(Session.Login, None));
    SuccessOutcome(reduced.store, reduced.state, Guards.HomePath)
  }

  const DefaultErrorText: string := "Ocorreu um erro ao tentar acessar o painel"

  /** The toast text of `onError`: `error.response?.data.msg || default`. With no response the
      default is shown; a truthy `msg` is shown as it is; a response without `data` makes the
      unguarded `.msg` read throw. */
  function ErrorText(error: Interceptors.HttpError): (r: Result<string>)
    ensures error.response.None? ==> r == Ok(DefaultErrorText)
    ensures error.response.Some? && error.response.value.data.IsNullish() ==>
      r == Fail(TypeErrorOnUndefined)
    ensures error.response.Some? && error.response.value.data.Present? ==>
      var msg := error.response.value.data.value.msg;
      r == Ok(if TruthyNullish(msg) then msg.value else DefaultErrorText)
  {
    match error.response
    case None => Ok(DefaultErrorText)
    case Some(response) =>
      match response.data
      case Present(data) => Ok(if TruthyNullish(data.msg) then data.msg.value else DefaultErrorText)
      case _ => Fail(TypeErrorOnUndefined)
  }
}

=== FILE: storage.dfy ===
/**
 The credential store of src/auth/storage.ts: the bearer token lives under one key of the
 browser's key/value storage. The storage is a map from keys to stored values; a value
 written by `saveAccessToken` is the serialised `{token}` record, a value written by
 `setAccessToken` is the raw string. Serialisation is kept abstract: a record always decodes
 to its token, and a raw, non-empty string is taken to be text `JSON.parse` rejects.
 */
module Storage {
  import opened Js

  /** Storage keys. The value of the one key the core uses is configuration not shown here. */
  datatype Key = AccessTokenKey | OtherKey(name: string)

  /** A stored value: the serialised `{token}` record, or a string written verbatim. */
  datatype Stored = Record(token: string) | Raw(text: string)

  type Store = map<Key, Stored>

  /** The `{token}` record handed to `saveAccessToken`. */
  datatype AccessTokenContext = AccessTokenContext(token: string)

  /** The header name and value format both the API client defaults and the interceptor use. */
  const AuthorizationHeader: string := "Authorization"

  function Bearer(token: string): string {
    "Bearer " + token
  }

  /** True iff the two stores agree on every key other than the credential key. */
  ghost predicate SameOtherKeys(a: Store, b: Store) {
    forall k :: k != AccessTokenKey ==> (k in a <==> k in b) && (k in a ==> a[k] == b[k])
  }

  /** `getAccessToken`: a missing or empty stored string reads as no token; a record yields
      its token (possibly the empty string); any other stored text makes `JSON.parse` throw. */
  function GetAccessToken(store: Store): (r: Result<Option<string>>)
    ensures r.Fail? <==>
      AccessTokenKey in store && store[AccessTokenKey].Raw? && store[AccessTokenKey].text != ""
    ensures r.Fail? ==> r.error == StorageParseError
    ensures r == Ok(None) <==> AccessTokenKey !in store || store[AccessTokenKey] == Raw("")
    ensures forall t ::
      r == Ok(Some(t)) <==> AccessTokenKey in store && store[AccessTokenKey] == Record(t)
  {
    if AccessTokenKey !in store then Ok(None)
    else match store[AccessTokenKey]
      case Raw(text) => if text == "" then Ok(None) else Fail(StorageParseError)
      case Record(token) => Ok(Some(token))
  }

  /** `isAuthenticated`: the truthiness of the decoded token; it throws whenever decoding does. */
  function IsAuthenticated(store: Store): (r: Result<bool>)
    ensures r.Fail? <==> GetAccessToken(store).Fail?
    ensures r.Ok? ==> (r.value <==> TruthyOption(GetAccessToken(store).value))
    ensures r == Ok(true) <==>
      exists t :: t != "" && AccessTokenKey in store && store[AccessTokenKey] == Record(t)
  {
    var token :- GetAccessToken(store);
    Ok(TruthyOption(token))
  }

  /** `setAccessToken`: writes the raw string under the credential key. A later read fails
      unless the string is empty, so this write does not round-trip with `GetAccessToken`. */
  function SetAccessToken(store: Store, accessToken: string): (r: Store)
    ensures AccessTokenKey in r && r[AccessTokenKey] == Raw(accessToken)
    ensures SameOtherKeys(store, r)
    ensures accessToken != "" ==> GetAccessToken(r) == Fail(StorageParseError)
    ensures accessToken == "" ==> GetAccessToken(r) == Ok(None) && IsAuthenticated(r) == Ok(false)
  {
    store[AccessTokenKey := Raw(accessToken)]
  }

  /** `saveAccessToken`: writes the serialised record; reading back yields the same token. */
  function SaveAccessToken(store: Store, context: AccessTokenContext): (r: Store)
    ensures GetAccessToken(r) == Ok(Some(context.token))
    ensures IsAuthenticated(r) == Ok(context.token != "")
    ensures SameOtherKeys(store, r)
  {
    store[AccessTokenKey := Record(context.token)]
  }

  /** `removeAccessToken`: deletes the credential key; afterwards there is no token. */
  function RemoveAccessToken(store: Store): (r: Store)
    ensures AccessTokenKey !in r
    ensures GetAccessToken(r) == Ok(None)
    ensures IsAuthenticated(r) == Ok(false)
    ensures SameOtherKeys(store, r)
  {
    store - {AccessTokenKey}
  }

  /** Removing twice is removing once. */
  lemma RemoveIdempotent(store: Store)
    ensures RemoveAccessToken(RemoveAccessToken(store)) == RemoveAccessToken(store)
  {
  }

  /** The three writers, as values, so that a sequence of writes can be replayed. */
  datatype Write = Save(context: AccessTokenContext) | SetRaw(text: string) | Remove

  function ApplyWrite(store: Store, w: Write): Store {
    match w
    case Save(c) => SaveAccessToken(store, c)
    case SetRaw(s) => SetAccessToken(store, s)
    case Remove => RemoveAccessToken(store)
  }

  function ApplyWrites(store: Store, ws: seq<Write>): Store
    decreases |ws|
  {
    if ws == [] then store else ApplyWrites(ApplyWrite(store, ws[0]), ws[1..])
  }

  /** Every write targets the credential key only: any sequence of writes leaves all other
      keys as they were. */
  lemma {:induction false} WritesTouchOnlyTheTokenKey(store: Store, ws: seq<Write>)
    ensures SameOtherKeys(store, ApplyWrites(store, ws))
    decreases |ws|
  {
    if ws != [] {
      var next := ApplyWrite(store, ws[0]);
      WritesTouchOnlyTheTokenKey(next, ws[1..]);
      forall k | k != AccessTokenKey
        ensures (k in store <==> k in ApplyWrites(store, ws))
        ensures k in store ==> store[k] == ApplyWrites(store, ws)[k]
      {
        assert (k in store <==> k in next) && (k in store ==> store[k] == next[k]);
      }
    }
  }

  /** The latest write wins: after any history of writes, what the credential key holds (and
      so what `GetAccessToken` reads) is decided by the last write alone. */
  lemma {:induction false} LatestWriteWins(store: Store, other: Store, ws: seq<Write>, last: Write)
    ensures GetAccessToken(ApplyWrites(store, ws + [last])) == GetAccessToken(ApplyWrite(other, last))
    decreases |ws|
  {
    if ws == [] {
      assert ws + [last] == [last];
    } else {
      assert (ws + [last])[1..] == ws[1..] + [last];
      LatestWriteWins(ApplyWrite(store, ws[0]), other, ws[1..], last);
    }
  }

  /** The client-wide request defaults the API client keeps. */
  datatype ApiDefaults = ApiDefaults(common: map<string, string>)

  /** `setAccessTokenToApiClient`: sets the default Authorization header to the bearer value
      and keeps every other default header. It takes no store, so storage is untouched. */
  function SetAccessTokenToApiClient(defaults: ApiDefaults, accessToken: string): (r: ApiDefaults)
    ensures AuthorizationHeader in r.common && r.common[AuthorizationHeader] == "Bearer " + accessToken
    ensures forall h :: h != AuthorizationHeader ==>
      && (h in r.common <==> h in defaults.common)
      && (h in defaults.common ==> r.common[h] == defaults.common[h])
  {
    ApiDefaults(defaults.common[AuthorizationHeader := Bearer(accessToken)])
  }
}

=== FILE: text.dfy ===
/**
 Removing every character of a class from a string, the behaviour of
 `s.replace(/<class>/g, '')` for a one-character class, which both the phone cleaner and
 the document cleaner of the profile form use.
 */
module Text {

  /** How many characters of `s` are in the class. */
  function Count(s: string, drop: char -> bool): (n: nat)
    ensures n <= |s|
    decreases |s|
  {
    if s == [] then 0 else (if drop(s[0]) then 1 else 0) + Count(s[1..], drop)
  }

  /** True iff `a` can be obtained from `b` by deleting characters. */
  predicate IsSubsequence(a: string, b: string)
    decreases |b|
  {
    if a == [] then true
    else if b == [] then false
    else (a[0] == b[0] && IsSubsequence(a[1..], b[1..])) || IsSubsequence(a, b[1..])
  }

  /** Every character of the class removed: none is left, exactly the others remain, and the
      string is unchanged exactly when it had none of them. */
  function RemoveAll(s: string, drop: char -> bool): (r: string)
    ensures forall i :: 0 <= i < |r| ==> !drop(r[i])
    ensures |r| == |s| - Count(s, drop)
    ensures r == s <==> Count(s, drop) == 0
    ensures Count(s, drop) == 0 <==> forall i :: 0 <= i < |s| ==> !drop(s[i])
    decreases |s|
  {
    if s == [] then []
    else
      var rest := RemoveAll(s[1..], drop);
      assert forall i :: 1 <= i < |s| ==> s[i] == s[1..][i - 1];
      if drop(s[0]) then rest else [s[0]] + rest
  }

  /** The characters that remain keep their original order. */
  lemma {:induction false} RemoveAllIsSubsequence(s: string, drop: char -> bool)
    ensures IsSubsequence(RemoveAll(s, drop), s)
    decreases |s|
  {
    if s != [] {
      RemoveAllIsSubsequence(s[1..], drop);
      var rest := RemoveAll(s[1..], drop);
      if drop(s[0]) {
        SubsequenceOfTail(rest, s);
      } else {
        assert ([s[0]] + rest)[1..] == rest;
      }
    }
  }

  /** A subsequence of the tail is a subsequence of the whole. */
  lemma SubsequenceOfTail(a: string, b: string)
    requires b != []
    requires IsSubsequence(a, b[1..])
    ensures IsSubsequence(a, b)
  {
  }

  /** Removing again removes nothing more. */
  lemma RemoveAllIdempotent(s: string, drop: char -> bool)
    ensures RemoveAll(RemoveAll(s, drop), drop) == RemoveAll(s, drop)
  {  }

  /** Removal distributes over concatenation. */
  lemma {:induction false} RemoveAllAppend(a: string, b: string, drop: char -> bool)
    ensures RemoveAll(a + b, drop) == RemoveAll(a, drop) + RemoveAll(b, drop)
    decreases |a|
  {
    if a == [] {
      assert a + b == b;
    } else {
      assert (a + b)[0] == a[0];
      assert (a + b)[1..] == a[1..] + b;
      RemoveAllAppend(a[1..], b, drop);
    }
  }

  /** The left-to-right scan `replace` performs, one character at a time. */
  method RemoveAllScan(s: string, drop: char -> bool) returns (r: string)
    ensures r == RemoveAll(s, drop)
  {
    r := [];
    var i := 0;
    while i < |s|
      invariant 0 <= i <= |s|
      invariant r == RemoveAll(s[..i], drop)
    {
      RemoveAllAppend(s[..i], [s[i]], drop);
      assert s[..i + 1] == s[..i] + [s[i]];
      if !drop(s[i]) {
        r := r + [s[i]];
      }
      i := i + 1;
    }
    assert s[..i] == s;
  }
}
